=== FILE: README.md ===
# OEE plant dashboard: drill-down navigation and stage risk gauge

A Dafny model of the two pieces of logic in the OEE steel-plant monitoring
dashboard that are more than markup:

- **Drill-down navigation** (`src/App.tsx`). Four nested views: plant
  overview ("gold"), stage ("silver"), equipment ("bronze") and sensor
  history ("data"). The root component keeps the open view and one nullable
  selection per level. Three forward click handlers each set one selection
  and open its view. A breadcrumb handler opens a shallower view and clears
  every selection deeper than it. The breadcrumb trail and the page heading
  are computed from this state.
  - `Navigation.Apply` is the transition function on a `NavState` value.
  - `Navigation.Navigator` is a class holding the four state variables. Each
    handler is a method proved to perform exactly `Apply`.
  - Whole click sequences are reasoned about with `Run` and `Legal`. `Legal`
    only admits calls the interface actually offers (`Enabled`).
- **Stage risk gauge** (`src/components/views/SilverView.tsx`). A half-donut
  with one arc per non-empty risk bucket (low, medium, high):
  - arcs are proportional to the bucket counts and separated by 3-degree
    gaps;
  - a click on an arc toggles a filter that highlights that arc and dims the
    others;
  - the filter also narrows the equipment list and relabels the centre
    readout.
  - `RiskGauge.Layout` is the specification of the arcs: a recursive `Walk`
    over the three renderer calls with one shared cursor.
  - `RiskGauge.RenderArc` and `RiskGauge.RenderGauge` are the imperative
    renderer, proved to produce `Layout`.
  - `RiskGauge.StageHealthPanel` holds the view's loaded data and its filter.
- `Records` holds the record shapes both use (stage, equipment summary,
  sensor), with the fields of the source records that the model uses or
  displays.

Decisions of note:

- **Forward clicks keep deeper selections.** A stage click does not clear
  the equipment or sensor selection, and an equipment click does not clear
  the sensor (src/App.tsx:35-43). `ForwardClicksClearDeeperWhenEnabled`
  proves that on every call the interface offers, those selections are
  already empty.
- **The chain invariant needs the breadcrumb guards.** "A sensor implies an
  equipment implies a stage" holds on every reachable state only when the
  breadcrumbs are called where the interface shows them:
  - the stage crumb only below the plant view (src/App.tsx:96);
  - the equipment crumb only on the equipment and sensor views (src/App.tsx:104);
  - the sidebar only ever calls the plant target
    (src/components/layout/Sidebar.tsx:88).

  `ReachableStatesConsistent` proves the invariant under these guards.
  `UnguardedBreadcrumbBreaksChain` shows that calling the equipment crumb
  from the plant view, then clicking a sensor, leaves a sensor selected with
  no equipment.
- **A breadcrumb to the sensor view is a no-op.** The handler's parameter
  type excludes it. If it did arrive, no branch of the if-chain would match
  and nothing would change, so that is what the model does.
- **Degrees are exact reals.** A bucket's degrees are its count times the
  scale. `Degree` writes this product as repeated addition (`Share`), so that
  the facts about the layout stay linear arithmetic. `DegreeIsProduct`
  proves it equals the product the source computes.

## Model

| member | source | states |
|---|---|---|
| Navigation.Apply | src/App.tsx:35-64 | A call opens its target view; only the sensor-view crumb, which no branch handles, leaves the state as it was. Each selection is either kept, cleared, or set to the clicked entity by a click at its own level. Every breadcrumb except the sensor-view one clears the sensor. |
| Navigation.Enabled | src/App.tsx:95-111 | A forward click is offered only on the view one level above the view it opens. A breadcrumb is offered only at or above the open view, never for the sensor view (the crumb guards at lines 96 and 104, the view switch at lines 146-168, and the sidebar's plant call at src/components/layout/Sidebar.tsx:88). |
| Navigation.Navigator.constructor | src/App.tsx:27-30 | The first render shows the plant view with stage, equipment and sensor all null. |
| Navigation.Navigator.HandleStageClick | src/App.tsx:35-38 | Selects the stage and opens the stage view. Equipment and sensor are left as they were. The new state is `Apply` of the old one. |
| Navigation.Navigator.HandleEquipmentClick | src/App.tsx:40-43 | Selects the equipment and opens the equipment view. Stage and sensor are left as they were. The new state is `Apply` of the old one. |
| Navigation.Navigator.HandleSensorClick | src/App.tsx:45-48 | Selects the sensor and opens the sensor view. Stage and equipment are left as they were. The new state is `Apply` of the old one. |
| Navigation.Navigator.HandleBreadcrumb | src/App.tsx:50-64 | Gold clears all three selections. Silver keeps the stage and clears equipment and sensor. Bronze keeps stage and equipment and clears the sensor. Data changes nothing. The new state is `Apply` of the old one. |
| Navigation.BreadcrumbResetsBelowTarget | src/App.tsx:50-64 | A breadcrumb opens its target, keeps every selection at or above the target's depth and clears every deeper one. |
| Navigation.BreadcrumbIdempotent | src/App.tsx:50-64 | Applying the same breadcrumb twice gives the same state as applying it once, for every target. |
| Navigation.EnabledStepPreservesConsistent | src/App.tsx:35-64 | Every call the interface offers keeps one selection per level down to the open view and none deeper. |
| Navigation.LegalRunPreservesConsistent | src/App.tsx:35-64 | A whole sequence of offered calls keeps that consistency. |
| Navigation.ReachableStatesConsistent | src/App.tsx:27-64 | In every state reachable from the initial one by offered calls, sensor ⇒ equipment ⇒ stage, and the stage view always has its stage. |
| Navigation.ForwardClicksClearDeeperWhenEnabled | src/App.tsx:35-43 | On a consistent state where the click is offered, a stage click leaves only the stage selected, and an equipment click leaves no sensor. |
| Navigation.UnguardedBreadcrumbBreaksChain | src/App.tsx:50-64 | The equipment crumb called on the plant view, then a sensor click, gives a sensor without an equipment. This sequence is not offered by the interface. |
| Navigation.DrillDownAndBackToStage | src/App.tsx:35-64 | Stage click, equipment click, then the stage crumb: the sequence is offered and ends on the stage view with only the stage selected. |
| Navigation.Trail | src/App.tsx:95-117 | The trail has one entry per level down to the open view, starts with "Plant" and highlights its last entry. |
| Navigation.TrailShape | src/App.tsx:95-117 | The trail has 1, 2, 3 or 4 entries for gold, silver, bronze and data. "Plant" comes first. Exactly the last entry is highlighted. Each entry targets the view at its own depth, except the sensor entry, which targets none. The stage and equipment entries show the selection or the sample-data fallback. |
| Navigation.BreadcrumbEnabledIffShown | src/App.tsx:95-111 | A breadcrumb call is offered exactly when the trail shows an entry targeting that view. |
| Navigation.BreadcrumbTruncatesTrail | src/App.tsx:95-111 | Clicking entry i cuts the trail to its first i+1 entries, with the same texts and targets, and highlights entry i. |
| Navigation.Title | src/App.tsx:122-127 | Below the plant view the heading is the highlighted crumb's text, except on a sensor view with no sensor, where it reads "Sensor Data". |
| Navigation.ReachableTitlesUseSelection | src/App.tsx:122-127 | On reachable states the heading and the stage crumb name the selected stage, equipment or sensor, never the fallback. |
| RiskGauge.AvailableDeg | src/components/views/SilverView.tsx:80-83 | The available degrees lie between 174 and 180. With at most one non-empty bucket they are 180, not 183. Otherwise they plus one 3-degree gap per neighbouring pair make 180. |
| RiskGauge.Scale | src/components/views/SilverView.tsx:85 | The scale is never negative, and it is 0 with no division when the total is not positive. |
| RiskGauge.ScaleSharesAvailable | src/components/views/SilverView.tsx:85 | With a positive total, the scale times the total is the available degrees. |
| RiskGauge.DegreeIsProduct | src/components/views/SilverView.tsx:87-89 | A bucket's degrees are its count times the scale. |
| RiskGauge.DegreesAddUp | src/components/views/SilverView.tsx:87-89 | The three buckets' degrees add up to the total's degrees. |
| RiskGauge.TotalDegreeAvailable | src/components/views/SilverView.tsx:81-89 | With a positive total, the total's degrees are the available degrees. |
| RiskGauge.DegreesNonNegative | src/components/views/SilverView.tsx:85-89 | Counts that are not negative get degrees that are not negative. |
| RiskGauge.MakeArc | src/components/views/SilverView.tsx:100-108 | The arc keeps its bucket and angles. It is never both active and dimmed, nothing is dimmed under `all`, and its stroke is wider than the base exactly when it is active. |
| RiskGauge.Emit | src/components/views/SilverView.tsx:94-98 | A renderer call draws one arc exactly when its count is positive, starting at the cursor and spanning the segment's degrees. |
| RiskGauge.Advance | src/components/views/SilverView.tsx:94-98 | A call that draws nothing leaves the cursor where it was; one that draws moves it forward by at least one gap. |
| RiskGauge.Layout | src/components/views/SilverView.tsx:177-179 | The gauge, the three renderer calls sharing a cursor from 0 (lines 92-98), draws exactly `activeSegments` arcs. |
| RiskGauge.RenderArc | src/components/views/SilverView.tsx:94-101 | A count ≤ 0 draws nothing and leaves the cursor where it was. Otherwise it draws an arc from the cursor over the given degrees, with the active and dimmed flags and stroke, and moves the cursor past the arc plus one gap. |
| RiskGauge.RenderGauge | src/components/views/SilverView.tsx:177-179 | The three renderer calls low, medium, high, sharing a cursor from 0, produce exactly `Layout`. |
| RiskGauge.WalkOfThree | src/components/views/SilverView.tsx:92-98 | Walking three segments is the three calls in order, each starting where the previous one left the cursor. |
| RiskGauge.WalkLength | src/components/views/SilverView.tsx:95 | One arc is drawn per segment with a positive count. |
| RiskGauge.DrawnIsSelection | src/components/views/SilverView.tsx:95 | Every drawing segment is one of the calls and has a positive count. |
| RiskGauge.WalkAt | src/components/views/SilverView.tsx:94-101 | Arc i belongs to the i-th drawing segment, spans exactly its degrees and carries its flags. |
| RiskGauge.WalkStartAt | src/components/views/SilverView.tsx:92-98 | The first arc starts at the cursor. Each next arc starts one gap after the previous arc's end. |
| RiskGauge.WalkLastEnd | src/components/views/SilverView.tsx:92-98 | The last arc ends after the drawn degrees plus one gap per neighbouring pair. |
| RiskGauge.WalkBoundsAt | src/components/views/SilverView.tsx:92-98 | With degrees that are not negative, every arc lies between the cursor and that end. |
| RiskGauge.DrawnOfThree | src/components/views/SilverView.tsx:95 | Of three calls, exactly those with a positive count draw, in order. |
| RiskGauge.PositiveBucketsOrdered | src/components/views/SilverView.tsx:81 | There are `activeSegments` positive buckets, listed in strictly increasing order low < medium < high. |
| RiskGauge.DrawnSegments | src/components/views/SilverView.tsx:177-179 | The drawing segments are the positive buckets in order, each with its count and degrees. |
| RiskGauge.DrawnCount | src/components/views/SilverView.tsx:81 | The number of arcs drawn is `activeSegments`. |
| RiskGauge.DrawnDegreesSum | src/components/views/SilverView.tsx:81-89 | For counts that are not negative with a positive total, the drawn degrees add up to the available degrees. |
| RiskGauge.LayoutAt | src/components/views/SilverView.tsx:92-101 | Arc i is the i-th positive bucket's, has a positive count and spans that bucket's degrees with its flags. It starts at 0, or one gap after arc i-1's end. |
| RiskGauge.LayoutArcs | src/components/views/SilverView.tsx:92-115 | One arc per positive bucket, in order low, medium, high. Each spans its degrees. It is active iff the filter is its bucket, dimmed iff another bucket is filtered, and 8 units wider when active. |
| RiskGauge.ActiveArcs | src/components/views/SilverView.tsx:100-101 | Under `all` no arc is active or dimmed. At most one arc is active. |
| RiskGauge.LayoutChained | src/components/views/SilverView.tsx:92-98 | The first arc starts at 0°. Each next arc starts exactly 3° after the previous arc's end. |
| RiskGauge.LayoutFillsTrack | src/components/views/SilverView.tsx:80-98 | For counts that are not negative with a positive total, the arcs start at 0°, are chained by 3° gaps, and the last ends at exactly 180°. |
| RiskGauge.LayoutWithinTrack | src/components/views/SilverView.tsx:37 | Under exact arithmetic, for counts that are not negative, every arc lies within [0, 180], spans at most 180°, and so gets large-arc flag "0". |
| RiskGauge.LargeArcFlag | src/components/views/SilverView.tsx:37 | The flag is "0" or "1", and "0" for every arc inside the half circle. |
| RiskGauge.ZeroTotalDrawsNothing | src/components/views/SilverView.tsx:85-89 | A zero total gives scale 0 and zero degrees for every bucket, with no division. Every arc is degenerate, and with counts that are not negative none is drawn at all. |
| RiskGauge.SampleStageLayout | src/components/views/SilverView.tsx:70-98 | The sample stage's counts 7, 6, 3 give arcs [0, 76.125], [79.125, 144.375] and [147.375, 180]. |
| RiskGauge.TwoBucketLayout | src/components/views/SilverView.tsx:80-101 | Counts 0, 5, 5 under the high filter give two 88.5° arcs with one gap: medium dimmed, high active and 8 units wider. |
| RiskGauge.Toggle | src/components/views/SilverView.tsx:111 | A click yields `all` exactly when the clicked bucket is the current filter. Otherwise it yields the clicked bucket. |
| RiskGauge.ToggleTwiceFromAll | src/components/views/SilverView.tsx:111 | Clicking the same arc twice, starting from `all`, returns to `all`. |
| RiskGauge.ToLower | src/components/views/SilverView.tsx:121 | Lower-casing keeps the length, leaves no capital A to Z, and leaves every other character unchanged. |
| RiskGauge.ToLowerIdempotent | src/components/views/SilverView.tsx:121 | Lower-casing twice is the same as lower-casing once. |
| RiskGauge.ToLowerIgnoresCase | src/components/views/SilverView.tsx:121 | For a lower-case word, lower-casing a string gives that word exactly when the string spells it with any mix of capitals and small letters. |
| RiskGauge.Category | src/components/views/SilverView.tsx:121 | An item without a risk category compares as the empty string. Otherwise its category is compared lower-cased, with its length kept. |
| RiskGauge.Matches | src/components/views/SilverView.tsx:118-127 | Under `all` every item matches. Under a bucket filter an item matches exactly when its lower-cased category is the bucket's name or its status is the bucket's colour (green, yellow, red). |
| RiskGauge.MatchesIgnoringCase | src/components/views/SilverView.tsx:120-125 | Under a bucket filter, an item's category equals the bucket's name after lower-casing exactly when it spells that name up to case, and every such item passes the filter. |
| RiskGauge.FilterEquipment | src/components/views/SilverView.tsx:118-127 | The filtered list is no longer than the list, and holds only list items that match the filter. |
| RiskGauge.FilterAllKeepsList | src/components/views/SilverView.tsx:119 | Under `all` the list is returned unchanged. |
| RiskGauge.FilterIsSubsequence | src/components/views/SilverView.tsx:118-127 | The filter keeps the list's order: the result is a subsequence of the list. |
| RiskGauge.FilterCount | src/components/views/SilverView.tsx:118-127 | Each matching item is kept exactly as often as it occurs in the list, and no other item is kept. |
| RiskGauge.FilterFallsBackOnStatus | src/components/views/SilverView.tsx:120-125 | A red item whose category is "medium" passes the high filter. The category "HIGH" is compared case-insensitively. |
| RiskGauge.CenterValue | src/components/views/SilverView.tsx:185-187 | Under a bucket filter the readout is positive exactly when that bucket has items. With counts that are not negative it lies between 0 and the total. |
| RiskGauge.CenterText | src/components/views/SilverView.tsx:195 | The caption reads "All Assets" exactly when no bucket is filtered. |
| RiskGauge.CenterReadout | src/components/views/SilverView.tsx:185-195 | Under `all` the readout is the total asset count, and equals the sum of the three bucket readouts. Different filters give different captions ("All Assets", "<bucket> Risk"). |
| RiskGauge.CenterPositiveIffActiveArc | src/components/views/SilverView.tsx:185-187 | Under a bucket filter, the readout is positive exactly when the gauge draws an active arc. |
| RiskGauge.ActiveArcMatchesCenter | src/components/views/SilverView.tsx:185-187 | The active arc is the filtered bucket's and spans that bucket's degrees, which are the centre readout times the scale. |
| RiskGauge.CenterAllFillsGauge | src/components/views/SilverView.tsx:81-89 | With a positive total, the unfiltered centre readout times the scale is exactly the degrees shared out among the arcs. |
| RiskGauge.StageHealthPanel.constructor | src/components/views/SilverView.tsx:45-48 | On mount no data is loaded and the filter is `all`. |
| RiskGauge.StageHealthPanel.LoadStage | src/components/views/SilverView.tsx:54-56 | New stage data replaces the old and resets the filter to `all`, so the whole equipment list is visible. |
| RiskGauge.StageHealthPanel.ClickArc | src/components/views/SilverView.tsx:111 | A click sets the filter to the toggle of the old filter and leaves the data unchanged. |
| RiskGauge.StageHealthPanel.ResetFilter | src/components/views/SilverView.tsx:202-209 | The reset button, here and at line 233, sets the filter to `all` and shows the whole list again. |

## Left out

- SVG coordinates: `polarToCartesian` and the path built by `describeArc`
  (src/components/views/SilverView.tsx:26-41) use cosine and sine on
  floating point. Only the large-arc flag is modelled.
- Markup, colours, opacity, drop shadows and animation. Only the booleans
  that drive them are kept (active, dimmed, highlighted, stroke width).
- Asynchrony and I/O:
  - the stage loader's fetch, with its loading and error flags
    (src/components/views/SilverView.tsx:50-67);
  - `src/services/api.ts`;
  - the polling and `setTimeout` in the other views and the sidebar.
  A completed load is modelled as `LoadStage`.
- The other views and panels:
  - GoldView, BronzeView, DataView, AlertsModal and the sidebar are not part
    of this model;
  - the sidebar matters only as the caller of the plant breadcrumb;
  - the data passed to the sensor view (src/App.tsx:167) is a rendering
    concern.
- The line under the page heading (src/App.tsx:128-133) is a constant
  text per view, which is markup.
- The "Showing X of Y" counter and the empty-list message are not modelled.
  They only display `FilterEquipment`'s length and emptiness.
- RiskGauge.ToLower: lower-cases only A to Z. JavaScript's `toLowerCase`
  also folds other Unicode letters; the categories the filter compares with
  are ASCII. Its own contract does not say which small letter a capital
  becomes; `ToLowerIgnoresCase` states that each capital becomes its own
  small letter, which is what the case-insensitive comparison needs.
- RiskGauge.Scale: computed in exact real arithmetic. The source uses
  binary floating point, where the last arc may end a rounding error away
  from 180. Then an arc can span slightly more than 180 degrees. For
  example, with 169 items all in one bucket, 180 / 169 * 169 is
  180.00000000000003 in IEEE doubles, and line 37 emits large-arc flag "1".
  So `LayoutWithinTrack`'s flag "0" holds only in exact arithmetic. The
  drawn path barely changes, because the two end points are almost exactly
  opposite.
- RiskGauge.Distribution: counts are unbounded integers. The source's
  `|| 0` fallback for a missing count is not modelled, because the record
  type makes every count present.

=== FILE: gauge.dfy ===
/** The stage view's segmented risk gauge (src/components/views/SilverView.tsx):
    a half-donut of up to three arcs, one per non-empty risk bucket (low,
    medium, high), sized in proportion to the bucket's equipment count and
    separated by 3-degree gaps; a click on an arc toggles a filter that
    highlights that arc, dims the others, narrows the equipment list and
    relabels the centre readout.

    Angles are kept in degrees as `real`; the conversion to SVG coordinates
    (cosine and sine) is not part of this model. */
module RiskGauge {
  import opened Records

  /** The gauge's filter: everything, or one risk bucket. */
  datatype RiskFilter = All | Low | Medium | High

  /** Equipment counts per risk bucket, as the stage data delivers them. */
  datatype Distribution = Distribution(low: int, medium: int, high: int)

  /** Stroke width of an arc that is not highlighted. */
  const Stroke: int := 24
  /** Degrees left empty between two neighbouring arcs. */
  const Gap: int := 3
  /** The whole track, a half circle. */
  const TotalDeg: int := 180

  /** Counts delivered by the data layer are never negative. */
  predicate NonNegative(d: Distribution)
  {
    d.low >= 0 && d.medium >= 0 && d.high >= 0
  }

  function TotalAssets(d: Distribution): int
  {
    d.low + d.medium + d.high
  }

  /** The count of one bucket (the whole total for `All`). */
  function BucketCount(d: Distribution, b: RiskFilter): int
  {
    match b
    case All => TotalAssets(d)
    case Low => d.low
    case Medium => d.medium
    case High => d.high
  }

  /** Number of buckets with a strictly positive count, i.e. of arcs drawn. */
  function ActiveSegments(d: Distribution): nat
  {
    (if d.low > 0 then 1 else 0) + (if d.medium > 0 then 1 else 0) + (if d.high > 0 then 1 else 0)
  }

  /** Degrees shared out among the arcs: the half circle less one gap
      between each pair of neighbouring arcs. With no arc or a single arc the
      gap total is not positive and nothing is taken off. */
  function AvailableDeg(d: Distribution): (r: int)
    ensures TotalDeg - 2 * Gap <= r <= TotalDeg
    ensures ActiveSegments(d) <= 1 ==> r == TotalDeg
    ensures ActiveSegments(d) >= 1 ==> r + (ActiveSegments(d) - 1) * Gap == TotalDeg
  {
    var totalGap := (ActiveSegments(d) - 1) * Gap;
    TotalDeg - (if totalGap > 0 then totalGap else 0)
  }

  /** Degrees per unit of count; zero, with no division, when the total is
      not positive. */
  function Scale(d: Distribution): (r: real)
    ensures r >= 0.0
    ensures TotalAssets(d) <= 0 ==> r == 0.0
  {
    if TotalAssets(d) > 0 then AvailableDeg(d) as real / TotalAssets(d) as real else 0.0
  }

  /** With a positive total, the scale shares out exactly the available
      degrees. */
  lemma ScaleSharesAvailable(d: Distribution)
    requires TotalAssets(d) > 0
    ensures Scale(d) * TotalAssets(d) as real == AvailableDeg(d) as real
  {
  }

  /** `n` times `k`, spelled out as repeated addition. The arc layout only
      ever adds and compares degrees; keeping the product behind this
      function leaves those facts linear, and `ShareIsProduct` connects it
      back to the multiplication. */
  function Share(n: int, k: real): real
    decreases if n < 0 then -n else n
  {
    if n == 0 then 0.0 else if n > 0 then Share(n - 1, k) + k else Share(n + 1, k) - k
  }

  lemma {:induction false} ShareIsProduct(n: int, k: real)
    ensures Share(n, k) == n as real * k
    decreases if n < 0 then -n else n
  {
    if n > 0 {
      ShareIsProduct(n - 1, k);
    } else if n < 0 {
      ShareIsProduct(n + 1, k);
    }
  }

  /** Degrees allotted to one bucket: its count times the scale. */
  function Degree(d: Distribution, b: RiskFilter): real
  {
    Share(BucketCount(d, b), Scale(d))
  }

  /** With a positive total, the whole total's degrees are the available
      degrees. */
  lemma TotalDegreeAvailable(d: Distribution)
    requires TotalAssets(d) > 0
    ensures Degree(d, All) == AvailableDeg(d) as real
  {
    ShareIsProduct(TotalAssets(d), Scale(d));
    ScaleSharesAvailable(d);
  }

  lemma DegreeIsProduct(d: Distribution, b: RiskFilter)
    ensures Degree(d, b) == BucketCount(d, b) as real * Scale(d)
  {
    ShareIsProduct(BucketCount(d, b), Scale(d));
  }

  // ---------------------------------------------------------------------
  // Arc layout

  /** One call of the arc renderer: the bucket it draws, its count and the
      degrees allotted to it. */
  datatype Segment = Segment(bucket: RiskFilter, value: int, degree: real)

  /** The three renderer calls, in their fixed order low, medium, high. */
  function Segments(d: Distribution): seq<Segment>
  {
    [Segment(Low, d.low, Degree(d, Low)),
     Segment(Medium, d.medium, Degree(d, Medium)),
     Segment(High, d.high, Degree(d, High))]
  }

  /** A drawn arc: its bucket, the angles it spans, and the flags that pick
      its stroke and opacity. */
  datatype Arc = Arc(bucket: RiskFilter, start: real, end: real, isActive: bool, isDimmed: bool, strokeWidth: int)

  /** An arc from `start` to `end` for `bucket`, flagged against `filter`:
      active when the filter is its bucket (and then drawn 8 units wider),
      dimmed when another bucket is filtered. */
  function MakeArc(bucket: RiskFilter, start: real, end: real, filter: RiskFilter): (r: Arc)
    ensures r.bucket == bucket && r.start == start && r.end == end
    ensures !(r.isActive && r.isDimmed)
    ensures filter == All ==> !r.isDimmed
    ensures r.strokeWidth > Stroke <==> r.isActive
  {
    var active := filter == bucket;
    Arc(bucket, start, end, active, filter != All && !active, if active then Stroke + 8 else Stroke)
  }

  /** What one renderer call draws with the cursor at `cursor`: nothing for
      a count that is not positive, else an arc of the segment's degrees
      starting at the cursor. */
  function Emit(s: Segment, cursor: real, filter: RiskFilter): (r: seq<Arc>)
    ensures |r| == (if s.value > 0 then 1 else 0)
    ensures s.value > 0 ==> r[0].start == cursor && r[0].end - r[0].start == s.degree
  {
    if s.value <= 0 then [] else [MakeArc(s.bucket, cursor, cursor + s.degree, filter)]
  }

  /** Where one renderer call leaves the cursor: unmoved when it draws
      nothing, else past the arc and one gap. */
  function Advance(s: Segment, cursor: real): (r: real)
    ensures s.value <= 0 ==> r == cursor
    ensures s.value > 0 && s.degree >= 0.0 ==> r >= cursor + Gap as real
  {
    if s.value <= 0 then cursor else cursor + s.degree + Gap as real
  }

  /** The arcs drawn by successive renderer calls sharing one cursor. */
  function Walk(segs: seq<Segment>, cursor: real, filter: RiskFilter): seq<Arc>
    decreases |segs|
  {
    if segs == [] then []
    else Emit(segs[0], cursor, filter) + Walk(segs[1..], Advance(segs[0], cursor), filter)
  }

  /** The gauge's arcs for a distribution under a filter, cursor from 0. */
  function Layout(d: Distribution, filter: RiskFilter): (r: seq<Arc>)
    ensures |r| == ActiveSegments(d)
  {
    WalkLength(Segments(d), 0.0, filter);
    DrawnCount(d);
    Walk(Segments(d), 0.0, filter)
  }

  /** The segments that draw an arc, in order. */
  function Drawn(segs: seq<Segment>): seq<Segment>
    decreases |segs|
  {
    if segs == [] then []
    else if segs[0].value <= 0 then Drawn(segs[1..])
    else [segs[0]] + Drawn(segs[1..])
  }

  /** The drawing segments are among the calls, and each has a positive
      count. */
  lemma {:induction false} DrawnIsSelection(segs: seq<Segment>)
    ensures |Drawn(segs)| <= |segs|
    ensures forall s | s in Drawn(segs) :: s in segs && s.value > 0
    decreases |segs|
  {
    if segs != [] {
      DrawnIsSelection(segs[1..]);
      assert forall s | s in segs[1..] :: s in segs;
    }
  }

  function SumDegrees(segs: seq<Segment>): real
    decreases |segs|
  {
    if segs == [] then 0.0 else segs[0].degree + SumDegrees(segs[1..])
  }

  /** The buckets of a list of arcs, in order. */
  function Buckets(arcs: seq<Arc>): seq<RiskFilter>
  {
    seq(|arcs|, i requires 0 <= i < |arcs| => arcs[i].bucket)
  }

  /** One arc per drawing segment. */
  lemma {:induction false} WalkLength(segs: seq<Segment>, cursor: real, filter: RiskFilter)
    ensures |Walk(segs, cursor, filter)| == |Drawn(segs)|
    decreases |segs|
  {
    if segs != [] {
      WalkLength(segs[1..], Advance(segs[0], cursor), filter);
    }
  }

  /** Arc `i` belongs to the `i`-th drawing segment and spans exactly its
      degrees with the flags of `MakeArc`. */
  lemma {:induction false} WalkAt(segs: seq<Segment>, cursor: real, filter: RiskFilter, i: nat)
    requires i < |Drawn(segs)|
    ensures i < |Walk(segs, cursor, filter)|
    ensures var w := Walk(segs, cursor, filter);
      var p := Drawn(segs);
      w[i] == MakeArc(p[i].bucket, w[i].start, w[i].start + p[i].degree, filter)
    decreases |segs|
  {
    WalkLength(segs, cursor, filter);
    var next := Advance(segs[0], cursor);
    var w := Walk(segs, cursor, filter);
    var rest := Walk(segs[1..], next, filter);
    assert w == Emit(segs[0], cursor, filter) + rest;
    if segs[0].value <= 0 {
      assert w == rest && Drawn(segs) == Drawn(segs[1..]);
      WalkAt(segs[1..], cursor, filter, i);
    } else {
      var p := Drawn(segs);
      assert p == [segs[0]] + Drawn(segs[1..]);
      if i > 0 {
        WalkAt(segs[1..], next, filter, i - 1);
        assert w[i] == rest[i - 1] && p[i] == Drawn(segs[1..])[i - 1];
      } else {
        assert w[0] == MakeArc(segs[0].bucket, cursor, cursor + segs[0].degree, filter) && p[0] == segs[0];
      }
    }
  }

  /** The first arc starts at the cursor and each next one exactly one gap
      after the previous end. */
  lemma {:induction false} WalkStartAt(segs: seq<Segment>, cursor: real, filter: RiskFilter, i: nat)
    requires i < |Drawn(segs)|
    ensures var w := Walk(segs, cursor, filter);
      && i < |w|
      && (i == 0 ==> w[i].start == cursor)
      && (i > 0 ==> w[i].start == w[i - 1].end + Gap as real)
    decreases |segs|
  {
    WalkLength(segs, cursor, filter);
    var next := Advance(segs[0], cursor);
    var w := Walk(segs, cursor, filter);
    var rest := Walk(segs[1..], next, filter);
    assert w == Emit(segs[0], cursor, filter) + rest;
    if segs[0].value <= 0 {
      WalkStartAt(segs[1..], cursor, filter, i);
    } else if i > 0 {
      WalkStartAt(segs[1..], next, filter, i - 1);
      assert w[i] == rest[i - 1] && w[i - 1] == (if i == 1 then w[0] else rest[i - 2]);
    }
  }

  /** The last arc ends after all drawn degrees and the gaps between them. */
  lemma {:induction false} WalkLastEnd(segs: seq<Segment>, cursor: real, filter: RiskFilter)
    requires |Drawn(segs)| > 0
    ensures var w := Walk(segs, cursor, filter);
      var p := Drawn(segs);
      |w| == |p| && w[|w| - 1].end == cursor + SumDegrees(p) + ((|p| - 1) * Gap) as real
    decreases |segs|
  {
    WalkLength(segs, cursor, filter);
    var next := Advance(segs[0], cursor);
    var w := Walk(segs, cursor, filter);
    var rest := Walk(segs[1..], next, filter);
    assert w == Emit(segs[0], cursor, filter) + rest;
    if segs[0].value <= 0 {
      WalkLastEnd(segs[1..], cursor, filter);
    } else {
      WalkLength(segs[1..], next, filter);
      if |Drawn(segs[1..])| > 0 {
        WalkLastEnd(segs[1..], next, filter);
        assert w[|w| - 1] == rest[|rest| - 1];
      }
    }
  }

  /** With no negative degrees, every arc lies between the cursor and the
      end of the last arc. */
  lemma {:induction false} WalkBoundsAt(segs: seq<Segment>, cursor: real, filter: RiskFilter, i: nat)
    requires forall s | s in segs :: s.degree >= 0.0
    requires i < |Drawn(segs)|
    ensures var w := Walk(segs, cursor, filter);
      var p := Drawn(segs);
      i < |w| && cursor <= w[i].start <= w[i].end <= cursor + SumDegrees(p) + ((|p| - 1) * Gap) as real
    decreases |segs|
  {
    WalkLength(segs, cursor, filter);
    var next := Advance(segs[0], cursor);
    var w := Walk(segs, cursor, filter);
    var rest := Walk(segs[1..], next, filter);
    assert w == Emit(segs[0], cursor, filter) + rest;
    assert forall s | s in segs[1..] :: s in segs;
    if segs[0].value <= 0 {
      WalkBoundsAt(segs[1..], cursor, filter, i);
    } else {
      var p := Drawn(segs);
      assert p == [segs[0]] + Drawn(segs[1..]);
      DrawnIsSelection(segs[1..]);
      SumDegreesNonNegative(Drawn(segs[1..]));
      if i > 0 {
        WalkBoundsAt(segs[1..], next, filter, i - 1);
        assert w[i] == rest[i - 1];
      }
    }
  }

  lemma {:induction false} SumDegreesNonNegative(segs: seq<Segment>)
    requires forall s | s in segs :: s.degree >= 0.0
    ensures SumDegrees(segs) >= 0.0
    decreases |segs|
  {
    if segs != [] {
      assert forall s | s in segs[1..] :: s in segs;
      SumDegreesNonNegative(segs[1..]);
    }
  }

  lemma {:induction false} SumDegreesAppend(a: seq<Segment>, b: seq<Segment>)
    ensures SumDegrees(a + b) == SumDegrees(a) + SumDegrees(b)
    decreases |a|
  {
    if a != [] {
      assert (a + b)[0] == a[0] && (a + b)[1..] == a[1..] + b;
      SumDegreesAppend(a[1..], b);
    } else {
      assert a + b == b;
    }
  }

  /** Walking three segments is the three renderer calls in sequence, each
      starting where the previous one left the cursor. */
  lemma WalkOfThree(a: Segment, b: Segment, c: Segment, cursor: real, filter: RiskFilter)
    ensures var c1 := Advance(a, cursor);
      Walk([a, b, c], cursor, filter) ==
        Emit(a, cursor, filter) + Emit(b, c1, filter) + Emit(c, Advance(b, c1), filter)
  {
    var s := [a, b, c];
    var c1 := Advance(a, cursor);
    var c2 := Advance(b, c1);
    assert s[1..] == [b, c] && s[1..][1..] == [c] && s[1..][1..][1..] == [];
    assert Walk([c], c2, filter) == Emit(c, c2, filter);
    assert Walk([b, c], c1, filter) == Emit(b, c1, filter) + Walk([c], c2, filter);
  }

  /** Of three renderer calls, those with a positive count draw, in order. */
  lemma DrawnOfThree(a: Segment, b: Segment, c: Segment)
    ensures Drawn([a, b, c]) ==
      (if a.value > 0 then [a] else []) + (if b.value > 0 then [b] else []) + (if c.value > 0 then [c] else [])
  {
    var s := [a, b, c];
    assert s[1..] == [b, c] && s[1..][1..] == [c] && s[1..][1..][1..] == [];
    assert Drawn([c]) == (if c.value > 0 then [c] else []);
    assert Drawn([b, c]) == (if b.value > 0 then [b] else []) + Drawn([c]);
    assert Drawn(s) == (if a.value > 0 then [a] else []) + Drawn([b, c]);
  }

  /** The buckets with a positive count, in the order low, medium, high. */
  function PositiveBuckets(d: Distribution): seq<RiskFilter>
  {
    (if d.low > 0 then [Low] else []) + (if d.medium > 0 then [Medium] else []) + (if d.high > 0 then [High] else [])
  }

  function Rank(b: RiskFilter): nat
  {
    match b
    case All => 0
    case Low => 1
    case Medium => 2
    case High => 3
  }

  /** The positive buckets are listed in strictly increasing order. */
  lemma PositiveBucketsOrdered(d: Distribution)
    ensures var pb := PositiveBuckets(d);
      |pb| == ActiveSegments(d) && forall i, j | 0 <= i < j < |pb| :: Rank(pb[i]) < Rank(pb[j])
  {
  }

  /** The segments that draw are those of the buckets with a positive
      count, in the order low, medium, high. */
  lemma DrawnSegments(d: Distribution)
    ensures var p := Drawn(Segments(d));
      && |p| == |PositiveBuckets(d)|
      && forall i | 0 <= i < |p| ::
           p[i].bucket == PositiveBuckets(d)[i] && p[i].value == BucketCount(d, p[i].bucket) && p[i].degree == Degree(d, p[i].bucket)
  {
    var s := Segments(d);
    DrawnOfThree(s[0], s[1], s[2]);
    assert s == [s[0], s[1], s[2]];
  }

  /** One segment draws per bucket with a positive count. */
  lemma DrawnCount(d: Distribution)
    ensures |Drawn(Segments(d))| == ActiveSegments(d)
  {
    DrawnSegments(d);
    PositiveBucketsOrdered(d);
  }

  /** Arc `i` of the gauge belongs to the `i`-th bucket with a positive
      count, spans that bucket's degrees, carries the flags of `MakeArc`,
      and starts at 0 if it is the first arc and one gap after the previous
      arc's end otherwise. */
  lemma LayoutAt(d: Distribution, filter: RiskFilter, i: nat)
    requires i < |Layout(d, filter)|
    ensures var l := Layout(d, filter);
      && |l| == |PositiveBuckets(d)|
      && l[i].bucket == PositiveBuckets(d)[i]
      && BucketCount(d, l[i].bucket) > 0
      && l[i].end == l[i].start + Degree(d, l[i].bucket)
      && l[i] == MakeArc(l[i].bucket, l[i].start, l[i].end, filter)
      && (i == 0 ==> l[i].start == 0.0)
      && (i > 0 ==> l[i].start == l[i - 1].end + Gap as real)
  {
    var s := Segments(d);
    var p := Drawn(s);
    WalkLength(s, 0.0, filter);
    DrawnSegments(d);
    WalkAt(s, 0.0, filter, i);
    WalkStartAt(s, 0.0, filter, i);
    assert p[i] in p;
  }

  /** The gauge draws one arc per bucket with a positive count, in the
      order low, medium, high; each spans its bucket's degrees; an arc is
      active exactly when the filter is its bucket, drawn 8 units wider
      then, and dimmed exactly when another bucket is filtered. */
  lemma LayoutArcs(d: Distribution, filter: RiskFilter)
    ensures var l := Layout(d, filter);
      && Buckets(l) == PositiveBuckets(d)
      && |l| == ActiveSegments(d)
      && (forall i, j | 0 <= i < j < |l| :: Rank(l[i].bucket) < Rank(l[j].bucket))
      && (forall i | 0 <= i < |l| ::
            && BucketCount(d, l[i].bucket) > 0
            && l[i].end - l[i].start == Degree(d, l[i].bucket)
            && (l[i].isActive <==> filter == l[i].bucket)
            && (l[i].isDimmed <==> filter != All && !l[i].isActive)
            && l[i].strokeWidth == (if l[i].isActive then Stroke + 8 else Stroke))
  {
    var l := Layout(d, filter);
    WalkLength(Segments(d), 0.0, filter);
    DrawnSegments(d);
    PositiveBucketsOrdered(d);
    forall i | 0 <= i < |l|
      ensures l[i].bucket == PositiveBuckets(d)[i]
      ensures BucketCount(d, l[i].bucket) > 0 && l[i].end - l[i].start == Degree(d, l[i].bucket)
      ensures l[i] == MakeArc(l[i].bucket, l[i].start, l[i].end, filter)
    {
      LayoutAt(d, filter, i);
    }
    assert Buckets(l) == PositiveBuckets(d);
  }

  /** Under `All` no arc is highlighted or dimmed; otherwise at most one arc
      is active. */
  lemma ActiveArcs(d: Distribution, filter: RiskFilter)
    ensures var l := Layout(d, filter);
      && (filter == All ==> forall i | 0 <= i < |l| :: !l[i].isActive && !l[i].isDimmed)
      && (forall i, j | 0 <= i < j < |l| :: !(l[i].isActive && l[j].isActive))
  {
    var l := Layout(d, filter);
    PositiveBucketsOrdered(d);
    forall i, j | 0 <= i < j < |l|
      ensures !(l[i].isActive && l[j].isActive)
    {
      LayoutAt(d, filter, i);
      LayoutAt(d, filter, j);
    }
    forall i | 0 <= i < |l| && filter == All
      ensures !l[i].isActive && !l[i].isDimmed
    {
      LayoutAt(d, filter, i);
    }
  }

  /** The three buckets' degrees add up to the degrees of the whole total. */
  lemma DegreesAddUp(d: Distribution)
    ensures Degree(d, Low) + Degree(d, Medium) + Degree(d, High) == Degree(d, All)
  {
    var k := Scale(d);
    ShareAdd(d.low, d.medium, k);
    ShareAdd(d.low + d.medium, d.high, k);
  }

  lemma ShareAdd(a: int, b: int, k: real)
    ensures Share(a, k) + Share(b, k) == Share(a + b, k)
  {
    ShareIsProduct(a, k);
    ShareIsProduct(b, k);
    ShareIsProduct(a + b, k);
  }

  /** Counts that are not negative get degrees that are not negative. */
  lemma DegreesNonNegative(d: Distribution)
    requires NonNegative(d)
    ensures forall x | x in Segments(d) :: x.degree >= 0.0
  {
    var k := Scale(d);
    ShareIsProduct(d.low, k);
    ShareIsProduct(d.medium, k);
    ShareIsProduct(d.high, k);
  }

  /** The degrees of the drawing segments add up to the available degrees. */
  lemma DrawnDegreesSum(d: Distribution)
    requires NonNegative(d) && TotalAssets(d) > 0
    ensures SumDegrees(Drawn(Segments(d))) == AvailableDeg(d) as real
  {
    var s := Segments(d);
    DrawnOfThree(s[0], s[1], s[2]);
    assert s == [s[0], s[1], s[2]];
    var lo := if d.low > 0 then [s[0]] else [];
    var me := if d.medium > 0 then [s[1]] else [];
    var hi := if d.high > 0 then [s[2]] else [];
    SumDegreesAppend(lo, me);
    SumDegreesAppend(lo + me, hi);
    assert SumDegrees(lo) == Degree(d, Low);
    assert SumDegrees(me) == Degree(d, Medium);
    assert SumDegrees(hi) == Degree(d, High);
    DegreesAddUp(d);
    TotalDegreeAvailable(d);
  }

  /** The first arc starts at 0 and each next one exactly one gap after
      the previous arc's end. */
  lemma LayoutChained(d: Distribution, filter: RiskFilter)
    ensures var l := Layout(d, filter);
      && (|l| > 0 ==> l[0].start == 0.0)
      && (forall i | 0 < i < |l| :: l[i].start == l[i - 1].end + Gap as real)
  {
    var l := Layout(d, filter);
    forall i | 0 <= i < |l|
      ensures i == 0 ==> l[i].start == 0.0
      ensures i > 0 ==> l[i].start == l[i - 1].end + Gap as real
    {
      LayoutAt(d, filter, i);
    }
  }

  /** For counts that are not negative and not all zero, the arcs tile the
      half circle: the first starts at 0, each next one starts exactly one gap
      after the previous end, and the last ends at exactly 180 degrees. */
  lemma LayoutFillsTrack(d: Distribution, filter: RiskFilter)
    requires NonNegative(d) && TotalAssets(d) > 0
    ensures var l := Layout(d, filter);
      && |l| > 0
      && l[0].start == 0.0
      && (forall i | 0 < i < |l| :: l[i].start == l[i - 1].end + Gap as real)
      && l[|l| - 1].end == TotalDeg as real
  {
    DrawnCount(d);
    LayoutChained(d, filter);
    WalkLastEnd(Segments(d), 0.0, filter);
    DrawnDegreesSum(d);
  }

  /** For counts that are not negative, every arc lies on the track between
      0 and 180 degrees, so it spans at most 180 degrees and is drawn with
      the small-arc flag. */
  lemma LayoutWithinTrack(d: Distribution, filter: RiskFilter)
    requires NonNegative(d)
    ensures forall a | a in Layout(d, filter) ::
      && 0.0 <= a.start <= a.end <= TotalDeg as real
      && a.end - a.start <= TotalDeg as real
      && LargeArcFlag(a.start, a.end) == "0"
  {
    var l := Layout(d, filter);
    var s := Segments(d);
    if TotalAssets(d) > 0 {
      DegreesNonNegative(d);
      DrawnCount(d);
      DrawnDegreesSum(d);
      forall a | a in l
        ensures 0.0 <= a.start <= a.end <= TotalDeg as real
      {
        var i :| 0 <= i < |l| && l[i] == a;
        WalkLength(s, 0.0, filter);
        WalkBoundsAt(s, 0.0, filter, i);
      }
    } else {
      LayoutArcs(d, filter);
    }
  }

  /** A total of zero needs no division: the scale and every bucket's
      degrees are zero, and counts that are not negative draw no arc at all. */
  lemma ZeroTotalDrawsNothing(d: Distribution, filter: RiskFilter)
    requires TotalAssets(d) == 0
    ensures Scale(d) == 0.0
    ensures Degree(d, Low) == 0.0 && Degree(d, Medium) == 0.0 && Degree(d, High) == 0.0
    ensures forall a | a in Layout(d, filter) :: a.start == a.end
    ensures NonNegative(d) ==> Layout(d, filter) == [] && AvailableDeg(d) == TotalDeg
  {
    LayoutArcs(d, filter);
    ShareIsProduct(d.low, 0.0);
    ShareIsProduct(d.medium, 0.0);
    ShareIsProduct(d.high, 0.0);
  }

  /** The SVG arc command's large-arc flag for an arc from `start` to `end`. */
  function LargeArcFlag(start: real, end: real): (r: string)
    ensures r == "0" || r == "1"
    ensures 0.0 <= start <= end <= 180.0 ==> r == "0"
  {
    if end - start <= 180.0 then "0" else "1"
  }

  /** The sample stage's counts 7, 6 and 3 give a scale of 10.875 degrees
      per item and arcs of 76.125, 65.25 and 32.625 degrees. */
  lemma SampleStageLayout()
    ensures Layout(Distribution(7, 6, 3), All) ==
      [Arc(Low, 0.0, 76.125, false, false, 24),
       Arc(Medium, 79.125, 144.375, false, false, 24),
       Arc(High, 147.375, 180.0, false, false, 24)]
  {
    var d := Distribution(7, 6, 3);
    assert Scale(d) == 10.875;
    ShareIsProduct(7, 10.875);
    ShareIsProduct(6, 10.875);
    ShareIsProduct(3, 10.875);
    var s := Segments(d);
    assert s[1..] == [s[1], s[2]] && s[1..][1..] == [s[2]] && s[1..][1..][1..] == [];
  }

  /** With no low-risk items, counts 0, 5 and 5 give two arcs of 88.5
      degrees and a single gap. */
  lemma TwoBucketLayout()
    ensures Layout(Distribution(0, 5, 5), High) ==
      [Arc(Medium, 0.0, 88.5, false, true, 24),
       Arc(High, 91.5, 180.0, true, false, 32)]
  {
    var d := Distribution(0, 5, 5);
    assert Scale(d) == 17.7;
    ShareIsProduct(0, 17.7);
    ShareIsProduct(5, 17.7);
    ShareIsProduct(5, 17.7);
    var s := Segments(d);
    assert s[1..] == [s[1], s[2]] && s[1..][1..] == [s[2]] && s[1..][1..][1..] == [];
  }

  /** One call of the arc renderer, with the shared angle cursor passed in
      and handed back. */
  method RenderArc(value: int, degree: real, bucket: RiskFilter, filter: RiskFilter, cursor: real)
    returns (arc: Option<Arc>, next: real)
    ensures (if arc.Some? then [arc.value] else []) == Emit(Segment(bucket, value, degree), cursor, filter)
    ensures next == Advance(Segment(bucket, value, degree), cursor)
  {
    if value <= 0 {
      return None, cursor;
    }
    var start := cursor;
    var end := cursor + degree;
    next := end + Gap as real;
    var isActive := filter == bucket;
    var isDimmed := filter != All && !isActive;
    arc := Some(Arc(bucket, start, end, isActive, isDimmed, if isActive then Stroke + 8 else Stroke));
  }

  /** The three renderer calls in order low, medium, high, sharing one
      cursor that starts at 0. */
  method RenderGauge(d: Distribution, filter: RiskFilter) returns (arcs: seq<Arc>)
    ensures arcs == Layout(d, filter)
  {
    var cursor := 0.0;
    var low, medium, high;
    low, cursor := RenderArc(d.low, Degree(d, Low), Low, filter, cursor);
    medium, cursor := RenderArc(d.medium, Degree(d, Medium), Medium, filter, cursor);
    high, cursor := RenderArc(d.high, Degree(d, High), High, filter, cursor);
    arcs := (if low.Some? then [low.value] else [])
      + (if medium.Some? then [medium.value] else [])
      + (if high.Some? then [high.value] else []);
    ghost var s := Segments(d);
    assert s == [s[0], s[1], s[2]];
    WalkOfThree(s[0], s[1], s[2], 0.0, filter);
  }

  // ---------------------------------------------------------------------
  // Click-to-toggle filter

  /** A click on the arc of `clicked`: the filtered bucket again returns to
      `All`, any other bucket becomes the filter. */
  function Toggle(current: RiskFilter, clicked: RiskFilter): (r: RiskFilter)
    ensures r == All <==> current == clicked || clicked == All
    ensures r != All ==> r == clicked
  {
    if current == clicked then All else clicked
  }

  /** Clicking one arc twice starting from `All` comes back to `All`. */
  lemma ToggleTwiceFromAll(b: RiskFilter)
    ensures Toggle(Toggle(All, b), b) == All
  {
  }

  // ---------------------------------------------------------------------
  // Equipment filter

  function LowerChar(c: char): char
  {
    if 'A' <= c <= 'Z' then (c as int + 32) as char else c
  }

  /** Lower-case form of a string (letters A to Z only): no capital is
      left, and every other character stays as it was. */
  function ToLower(s: string): (r: string)
    ensures |r| == |s|
    ensures forall i | 0 <= i < |r| :: !('A' <= r[i] <= 'Z')
    ensures forall i | 0 <= i < |s| && !('A' <= s[i] <= 'Z') :: r[i] == s[i]
  {
    seq(|s|, i requires 0 <= i < |s| => LowerChar(s[i]))
  }

  /** Lower-casing twice is lower-casing once. */
  lemma ToLowerIdempotent(s: string)
    ensures ToLower(ToLower(s)) == ToLower(s)
  {
  }

  /** `a` and the lower-case string `b` differ at most in case: each
      character of `a` is that of `b` or its capital. */
  predicate SameIgnoringCase(a: string, b: string)
  {
    |a| == |b| && forall i | 0 <= i < |a| :: a[i] == b[i] || ('a' <= b[i] <= 'z' && a[i] as int == b[i] as int - 32)
  }

  /** Lower-casing yields a given lower-case string exactly for the strings
      that spell it in any mix of capitals and small letters. */
  lemma ToLowerIgnoresCase(c: string, w: string)
    requires forall i | 0 <= i < |w| :: !('A' <= w[i] <= 'Z')
    ensures ToLower(c) == w <==> SameIgnoringCase(c, w)
  {
    if SameIgnoringCase(c, w) {
      assert forall i | 0 <= i < |c| :: ToLower(c)[i] == w[i];
    }
  }

  /** The lower-cased risk category, or the empty string when absent. */
  function Category(eq: Equipment): (r: string)
    ensures eq.riskCategory.None? ==> r == ""
    ensures eq.riskCategory.Some? ==> |r| == |eq.riskCategory.value|
    ensures forall i | 0 <= i < |r| :: !('A' <= r[i] <= 'Z')
  {
    match eq.riskCategory
    case Some(c) => ToLower(c)
    case None => ""
  }

  /** The status colour that stands for a bucket. */
  function Colour(b: RiskFilter): string
  {
    match b
    case All => ""
    case Low => "green"
    case Medium => "yellow"
    case High => "red"
  }

  /** Whether an item passes the filter: every item under `All`, otherwise
      an item whose risk category names the bucket or whose status is the
      bucket's traffic-light colour (high red, medium yellow, low green). */
  predicate Matches(eq: Equipment, filter: RiskFilter): (r: bool)
    ensures filter == All ==> r
    ensures filter != All ==> (r <==> Category(eq) == BucketName(filter) || eq.status == Colour(filter))
  {
    match filter
    case All => true
    case High => Category(eq) == "high" || eq.status == "red"
    case Medium => Category(eq) == "medium" || eq.status == "yellow"
    case Low => Category(eq) == "low" || eq.status == "green"
  }

  /** Under a bucket filter the category is compared without regard to
      case: an item passes on its category exactly when the category spells
      the bucket's name in capitals, small letters or a mix of both. */
  lemma MatchesIgnoringCase(eq: Equipment, b: RiskFilter)
    requires b != All && eq.riskCategory.Some?
    ensures Category(eq) == BucketName(b) <==> SameIgnoringCase(eq.riskCategory.value, BucketName(b))
    ensures SameIgnoringCase(eq.riskCategory.value, BucketName(b)) ==> Matches(eq, b)
  {
    ToLowerIgnoresCase(eq.riskCategory.value, BucketName(b));
  }

  /** The equipment list shown under a filter. */
  function FilterEquipment(xs: seq<Equipment>, filter: RiskFilter): (r: seq<Equipment>)
    ensures |r| <= |xs|
    ensures forall x | x in r :: x in xs && Matches(x, filter)
    decreases |xs|
  {
    if xs == [] then []
    else (if Matches(xs[0], filter) then [xs[0]] else []) + FilterEquipment(xs[1..], filter)
  }

  /** `a` is `b` with some entries left out, the rest in their order. */
  predicate IsSubsequence(a: seq<Equipment>, b: seq<Equipment>)
    decreases |b|
  {
    if a == [] then true
    else if b == [] then false
    else (a[0] == b[0] && IsSubsequence(a[1..], b[1..])) || IsSubsequence(a, b[1..])
  }

  /** Under `All` the list is shown unchanged. */
  lemma {:induction false} FilterAllKeepsList(xs: seq<Equipment>)
    ensures FilterEquipment(xs, All) == xs
    decreases |xs|
  {
    if xs != [] {
      FilterAllKeepsList(xs[1..]);
      assert xs == [xs[0]] + xs[1..];
    }
  }

  /** The filter keeps the order of the list. */
  lemma {:induction false} FilterIsSubsequence(xs: seq<Equipment>, filter: RiskFilter)
    ensures IsSubsequence(FilterEquipment(xs, filter), xs)
    decreases |xs|
  {
    if xs != [] {
      FilterIsSubsequence(xs[1..], filter);
      var r := FilterEquipment(xs, filter);
      var rest := FilterEquipment(xs[1..], filter);
      if Matches(xs[0], filter) {
        assert r == [xs[0]] + rest;
        assert r[0] == xs[0] && r[1..] == rest;
      } else {
        assert r == rest;
        IsSubsequenceDropHead(r, xs);
      }
    }
  }

  /** The filter keeps every matching item as often as it occurs in the
      list, and no other item. */
  lemma {:induction false} FilterCount(xs: seq<Equipment>, filter: RiskFilter, x: Equipment)
    ensures multiset(FilterEquipment(xs, filter))[x] == if Matches(x, filter) then multiset(xs)[x] else 0
    decreases |xs|
  {
    if xs != [] {
      FilterCount(xs[1..], filter, x);
      var r := FilterEquipment(xs, filter);
      var rest := FilterEquipment(xs[1..], filter);
      assert xs == [xs[0]] + xs[1..];
      assert multiset(xs) == multiset([xs[0]]) + multiset(xs[1..]);
      if Matches(xs[0], filter) {
        assert r == [xs[0]] + rest;
        assert multiset(r) == multiset([xs[0]]) + multiset(rest);
      } else {
        assert r == rest;
      }
    }
  }

  lemma IsSubsequenceDropHead(a: seq<Equipment>, b: seq<Equipment>)
    requires b != [] && IsSubsequence(a, b[1..])
    ensures IsSubsequence(a, b)
  {
  }

  /** An item whose status colour matches is kept even when its risk
      category names another bucket, and the category is compared without
      regard to case. */
  lemma FilterFallsBackOnStatus()
    ensures var eq := Equipment("TUNDISH-002", "Tundish", "red", 45, Some("medium"));
      FilterEquipment([eq], High) == [eq]
    ensures var eq := Equipment("SEN-001", "SEN", "green", 48, Some("HIGH"));
      FilterEquipment([eq], High) == [eq] && FilterEquipment([eq], Medium) == []
  {
    var eq := Equipment("SEN-001", "SEN", "green", 48, Some("HIGH"));
    assert Category(eq) == "high";
    assert Category(eq) != "medium";
  }

  // ---------------------------------------------------------------------
  // Centre readout

  /** The number in the middle of the gauge: under a bucket filter it is
      positive exactly when that bucket draws an arc, and with counts that
      are not negative it never exceeds the unfiltered readout. */
  function CenterValue(d: Distribution, filter: RiskFilter): (r: int)
    ensures filter != All ==> (r > 0 <==> filter in PositiveBuckets(d))
    ensures NonNegative(d) ==> 0 <= r <= TotalAssets(d)
  {
    BucketCount(d, filter)
  }

  function BucketName(b: RiskFilter): string
  {
    match b
    case All => "all"
    case Low => "low"
    case Medium => "medium"
    case High => "high"
  }

  /** The caption under that number; it reads "All Assets" exactly when
      no bucket is filtered. */
  function CenterText(filter: RiskFilter): (r: string)
    ensures r == "All Assets" <==> filter == All
  {
    if filter == All then "All Assets" else BucketName(filter) + " Risk"
  }

  /** Under `All` the readout is the sum of the three buckets, and
      different filters give different captions. */
  lemma CenterReadout(d: Distribution, filter: RiskFilter)
    ensures CenterValue(d, All) == TotalAssets(d)
    ensures CenterValue(d, All) == CenterValue(d, Low) + CenterValue(d, Medium) + CenterValue(d, High)
    ensures forall g :: CenterText(filter) == CenterText(g) ==> filter == g
  {
    forall g | CenterText(filter) == CenterText(g)
      ensures filter == g
    {
      assert |CenterText(filter)| == |CenterText(g)|;
    }
  }

  /** Under a bucket filter the readout is positive exactly when the gauge
      draws an active arc. */
  lemma CenterPositiveIffActiveArc(d: Distribution, filter: RiskFilter)
    requires filter != All
    ensures var l := Layout(d, filter);
      CenterValue(d, filter) > 0 <==> exists i | 0 <= i < |l| :: l[i].isActive
  {
    var l := Layout(d, filter);
    var pb := PositiveBuckets(d);
    LayoutArcs(d, filter);
    if CenterValue(d, filter) > 0 {
      assert filter in pb;
      var k :| 0 <= k < |pb| && pb[k] == filter;
      assert Buckets(l)[k] == l[k].bucket;
      assert l[k].isActive;
    }
  }

  /** The active arc is the filtered bucket's, and spans that bucket's
      degrees, which are the number in the centre times the scale. */
  lemma ActiveArcMatchesCenter(d: Distribution, filter: RiskFilter)
    ensures var l := Layout(d, filter);
      forall i | 0 <= i < |l| && l[i].isActive ::
        l[i].bucket == filter && l[i].end - l[i].start == Degree(d, filter)
    ensures Degree(d, filter) == CenterValue(d, filter) as real * Scale(d)
  {
    var l := Layout(d, filter);
    DegreeIsProduct(d, filter);
    forall i | 0 <= i < |l| && l[i].isActive
      ensures l[i].bucket == filter && l[i].end - l[i].start == Degree(d, filter)
    {
      LayoutAt(d, filter, i);
    }
  }

  /** With a positive total, the unfiltered number in the centre, at the
      gauge's scale, takes up exactly the degrees shared out among the
      arcs. */
  lemma CenterAllFillsGauge(d: Distribution)
    requires TotalAssets(d) > 0
    ensures CenterValue(d, All) as real * Scale(d) == AvailableDeg(d) as real
  {
    ScaleSharesAvailable(d);
  }

  // ---------------------------------------------------------------------
  // The stage view's own state

  /** The stage data the view shows, as the data layer returns it. */
  datatype StageDetail = StageDetail(stageId: string, name: string, risk: Distribution, equipment: seq<Equipment>)

  /** The stage view's state: the loaded stage data and the gauge filter. */
  class StageHealthPanel {
    var stageData: Option<StageDetail>
    var activeFilter: RiskFilter

    /** The equipment list on screen. */
    function VisibleEquipment(): seq<Equipment>
      reads this
    {
      match stageData
      case None => []
      case Some(data) => FilterEquipment(data.equipment, activeFilter)
    }

    /** On mount no data is loaded and the filter is `All`. */
    constructor ()
      ensures stageData == None && activeFilter == All
    {
      stageData := None;
      activeFilter := All;
    }

    /** New stage data has arrived: it replaces the old and the filter
        returns to `All`, so the whole list is shown. */
    method LoadStage(data: StageDetail)
      modifies this
      ensures stageData == Some(data) && activeFilter == All
      ensures VisibleEquipment() == data.equipment
    {
      stageData := Some(data);
      activeFilter := All;
      FilterAllKeepsList(data.equipment);
    }

    /** A click on the arc of `bucket` toggles the filter. */
    method ClickArc(bucket: RiskFilter)
      modifies this
      ensures activeFilter == Toggle(old(activeFilter), bucket)
      ensures stageData == old(stageData)
    {
      activeFilter := Toggle(activeFilter, bucket);
    }

    /** The "Reset View" and "Reset Filters" buttons: the filter returns to
        `All` and the whole list is shown again. */
    method ResetFilter()
      modifies this
      ensures activeFilter == All && stageData == old(stageData)
      ensures stageData.Some? ==> VisibleEquipment() == stageData.value.equipment
    {
      activeFilter := All;
      if stageData.Some? {
        FilterAllKeepsList(stageData.value.equipment);
      }
    }
  }
}

=== FILE: navigation.dfy ===
/** The drill-down navigation of the dashboard (src/App.tsx): which of the
    four nested views is open (plant overview, stage, equipment, sensor
    history), which entity is selected at each level, the handlers that move
    between views, and the breadcrumb trail and page title derived from it.

    The handlers are modelled twice, as they are used: `Apply` is the pure
    transition on a `NavState` value, used to reason about whole click
    sequences, and the class `Navigator` holds the four state variables and
    updates them in place, each handler proved to perform exactly `Apply`. */
module Navigation {
  import opened Records

  /** The four views, in drill-down order: plant ("gold"), stage ("silver"),
      equipment ("bronze") and sensor history ("data"). */
  datatype View = Gold | Silver | Bronze | Data

  /** How deep a view lies in the drill-down hierarchy. */
  function Depth(v: View): nat
  {
    match v
    case Gold => 0
    case Silver => 1
    case Bronze => 2
    case Data => 3
  }

  /** The view that lies at depth `d`. */
  function ViewAt(d: nat): View
    requires d <= 3
  {
    if d == 0 then Gold else if d == 1 then Silver else if d == 2 then Bronze else Data
  }

  /** The four state variables of the dashboard's root component. */
  datatype NavState = NavState(
    view: View,
    stage: Option<Stage>,
    equipment: Option<Equipment>,
    sensor: Option<Sensor>)

  /** The state on first render: plant overview, nothing selected. */
  function Initial(): NavState
  {
    NavState(Gold, None, None, None)
  }

  /** A call of one of the four handlers. */
  datatype Event =
    | StageClick(stage: Stage)
    | EquipmentClick(equipment: Equipment)
    | SensorClick(sensor: Sensor)
    | Breadcrumb(target: View)

  /** The view a call opens. */
  function TargetView(e: Event): View
  {
    match e
    case StageClick(_) => Silver
    case EquipmentClick(_) => Bronze
    case SensorClick(_) => Data
    case Breadcrumb(t) => t
  }

  /** The effect of one handler call. A forward click sets one selection and
      opens its view and leaves the deeper selections as they were; a
      breadcrumb opens its target and clears every deeper selection. A
      breadcrumb to the sensor view matches no branch of the handler's
      if-chain and changes nothing. */
  function Apply(s: NavState, e: Event): (r: NavState)
    ensures r.view == s.view || r.view == TargetView(e)
    ensures r.stage == s.stage || r.stage == None || (e.StageClick? && r.stage == Some(e.stage))
    ensures r.equipment == s.equipment || r.equipment == None || (e.EquipmentClick? && r.equipment == Some(e.equipment))
    ensures r.sensor == s.sensor || r.sensor == None || (e.SensorClick? && r.sensor == Some(e.sensor))
    ensures e != Breadcrumb(Data) ==> r.view == TargetView(e)
    ensures e == Breadcrumb(Data) ==> r == s
    ensures e.Breadcrumb? && e.target != Data ==> r.sensor == None
  {
    match e
    case StageClick(st) => s.(stage := Some(st), view := Silver)
    case EquipmentClick(eq) => s.(equipment := Some(eq), view := Bronze)
    case SensorClick(x) => s.(sensor := Some(x), view := Data)
    case Breadcrumb(t) =>
      match t
      case Gold => NavState(Gold, None, None, None)
      case Silver => s.(view := Silver, equipment := None, sensor := None)
      case Bronze => s.(view := Bronze, sensor := None)
      case Data => s
  }

  /** Whether the user interface offers the call in state `s`: a stage tile
      exists only on the plant view, an equipment card only once the stage
      view is mounted (which needs a selected stage), a sensor row only on the
      equipment view; the "Plant" crumb and the sidebar entry are always
      there, the stage crumb on every view but the plant view, the equipment
      crumb on the equipment and sensor views. */
  predicate Enabled(s: NavState, e: Event): (b: bool)
    ensures b && e.Breadcrumb? ==> Depth(e.target) <= Depth(s.view) && e.target != Data
    ensures b && !e.Breadcrumb? ==> Depth(TargetView(e)) == Depth(s.view) + 1
  {
    match e
    case StageClick(_) => s.view == Gold
    case EquipmentClick(_) => s.view == Silver && s.stage.Some?
    case SensorClick(_) => s.view == Bronze
    case Breadcrumb(t) =>
      match t
      case Gold => true
      case Silver => s.view != Gold
      case Bronze => s.view == Bronze || s.view == Data
      case Data => false
  }

  /** The state after the calls `es`, in order. */
  function Run(s: NavState, es: seq<Event>): NavState
    decreases |es|
  {
    if es == [] then s else Run(Apply(s, es[0]), es[1..])
  }

  /** Every call of `es` is offered by the interface when it is made. */
  predicate Legal(s: NavState, es: seq<Event>)
    decreases |es|
  {
    es == [] || (Enabled(s, es[0]) && Legal(Apply(s, es[0]), es[1..]))
  }

  /** The selections match the view exactly: one selection per level above
      the plant, down to the open view, and nothing deeper. */
  predicate Consistent(s: NavState)
  {
    && (s.stage.Some? <==> Depth(s.view) >= 1)
    && (s.equipment.Some? <==> Depth(s.view) >= 2)
    && (s.sensor.Some? <==> Depth(s.view) >= 3)
  }

  /** A breadcrumb is a downward-closing reset: it opens its target, keeps
      the selections at or above the target and clears all deeper ones. */
  lemma BreadcrumbResetsBelowTarget(s: NavState, t: View)
    requires t != Data
    ensures var r := Apply(s, Breadcrumb(t));
      && r.view == t
      && r.stage == (if Depth(t) >= 1 then s.stage else None)
      && r.equipment == (if Depth(t) >= 2 then s.equipment else None)
      && r.sensor == None
  {
  }

  /** Clicking the same breadcrumb twice is the same as clicking it once. */
  lemma BreadcrumbIdempotent(s: NavState, t: View)
    ensures Apply(Apply(s, Breadcrumb(t)), Breadcrumb(t)) == Apply(s, Breadcrumb(t))
  {
  }

  /** Every call the interface offers keeps the selections consistent. */
  lemma EnabledStepPreservesConsistent(s: NavState, e: Event)
    requires Consistent(s) && Enabled(s, e)
    ensures Consistent(Apply(s, e))
  {
  }

  lemma {:induction false} LegalRunPreservesConsistent(s: NavState, es: seq<Event>)
    requires Consistent(s) && Legal(s, es)
    ensures Consistent(Run(s, es))
    decreases |es|
  {
    if es != [] {
      EnabledStepPreservesConsistent(s, es[0]);
      LegalRunPreservesConsistent(Apply(s, es[0]), es[1..]);
    }
  }

  /** In every state the interface can reach from the initial one, a deeper
      selection implies the shallower ones, the stage view always has its
      stage, and the view's depth is the number of selections made. */
  lemma ReachableStatesConsistent(es: seq<Event>)
    requires Legal(Initial(), es)
    ensures var r := Run(Initial(), es);
      && Consistent(r)
      && (r.sensor.Some? ==> r.equipment.Some?)
      && (r.equipment.Some? ==> r.stage.Some?)
      && (r.view == Silver ==> r.stage.Some?)
  {
    LegalRunPreservesConsistent(Initial(), es);
  }

  /** The stage handler does not clear the equipment or the sensor, nor the
      equipment handler the sensor; on the calls the interface offers this
      makes no difference, because those selections are already empty. */
  lemma ForwardClicksClearDeeperWhenEnabled(s: NavState, e: Event)
    requires Consistent(s) && Enabled(s, e)
    ensures e.StageClick? ==> Apply(s, e) == NavState(Silver, Some(e.stage), None, None)
    ensures e.EquipmentClick? ==> Apply(s, e) == NavState(Bronze, s.stage, Some(e.equipment), None)
  {
  }

  /** Without the interface's guards on the breadcrumbs the selections can
      become inconsistent: the equipment crumb called on the plant view and
      then a sensor click selects a sensor with no equipment, although every
      forward click comes from the view one level shallower. */
  lemma UnguardedBreadcrumbBreaksChain(x: Sensor)
    ensures var es := [Breadcrumb(Bronze), SensorClick(x)];
      var r := Run(Initial(), es);
      && Apply(Initial(), es[0]).view == Bronze
      && r.sensor == Some(x) && r.equipment == None
      && !Legal(Initial(), es)
  {
    var es := [Breadcrumb(Bronze), SensorClick(x)];
    var s1 := Apply(Initial(), es[0]);
    assert es[1..] == [SensorClick(x)] && es[1..][1..] == [];
    assert Run(s1, es[1..]) == Run(Apply(s1, SensorClick(x)), []);
    assert !Enabled(Initial(), es[0]);
  }

  /** Drilling into a stage and an equipment item and going back to the
      stage crumb leaves the stage view with only the stage selected. */
  lemma DrillDownAndBackToStage(st: Stage, eq: Equipment)
    ensures var es := [StageClick(st), EquipmentClick(eq), Breadcrumb(Silver)];
      Legal(Initial(), es) && Run(Initial(), es) == NavState(Silver, Some(st), None, None)
  {
    var es := [StageClick(st), EquipmentClick(eq), Breadcrumb(Silver)];
    var s1 := Apply(Initial(), es[0]);
    var s2 := Apply(s1, es[1]);
    var s3 := Apply(s2, es[2]);
    assert es[1..] == [EquipmentClick(eq), Breadcrumb(Silver)];
    assert es[1..][1..] == [Breadcrumb(Silver)] && es[1..][1..][1..] == [];
    assert Legal(s2, es[1..][1..]) && Run(s2, es[1..][1..]) == s3;
    assert Legal(s1, es[1..]) && Run(s1, es[1..]) == s3;
  }

  // ---------------------------------------------------------------------
  // Breadcrumb trail and page title

  /** One entry of the breadcrumb trail: its text, whether it is drawn as
      the current location, and the view a click on it opens (none for the
      sensor entry, which is plain text). */
  datatype Crumb = Crumb(text: string, highlighted: bool, target: Option<View>)

  const PlantLabel: string := "Plant"
  /** Name of the sample stage shown when no stage is selected. */
  const FallbackStageName: string := "Continuous Casting"
  /** Identifier of the sample equipment shown when none is selected. */
  const FallbackEquipmentId: string := "TUNDISH-002"

  function StageLabel(s: NavState): string
  {
    match s.stage
    case Some(st) => st.name
    case None => FallbackStageName
  }

  function EquipmentLabel(s: NavState): string
  {
    match s.equipment
    case Some(eq) => eq.equipId
    case None => FallbackEquipmentId
  }

  /** The sensor entry shows the sensor's name, and nothing without one. */
  function SensorLabel(s: NavState): string
  {
    match s.sensor
    case Some(x) => x.name
    case None => ""
  }

  /** The breadcrumb trail: "Plant", then the stage from the stage view on,
      the equipment from the equipment view on, and the sensor on the sensor
      view. */
  function Trail(s: NavState): (r: seq<Crumb>)
    ensures |r| == Depth(s.view) + 1
    ensures r[0].text == PlantLabel && r[|r| - 1].highlighted
  {
    [Crumb(PlantLabel, s.view == Gold, Some(Gold))]
    + (if s.view != Gold then [Crumb(StageLabel(s), s.view == Silver, Some(Silver))] else [])
    + (if s.view == Bronze || s.view == Data then [Crumb(EquipmentLabel(s), s.view == Bronze, Some(Bronze))] else [])
    + (if s.view == Data then [Crumb(SensorLabel(s), true, None)] else [])
  }

  /** The trail has one entry per level down to the open view, starts with
      "Plant", highlights exactly its last entry (the open view), lets every
      entry above the sensor open the view at its own depth, and labels the
      stage and equipment entries with the selection or its fallback. */
  lemma TrailShape(s: NavState)
    ensures var t := Trail(s);
      && |t| == Depth(s.view) + 1
      && t[0].text == PlantLabel
      && (forall i | 0 <= i < |t| :: t[i].highlighted <==> i == |t| - 1)
      && (forall i | 0 <= i < |t| :: t[i].target == if i == 3 then None else Some(ViewAt(i)))
      && (|t| > 1 ==> t[1].text == StageLabel(s))
      && (|t| > 2 ==> t[2].text == EquipmentLabel(s))
      && (|t| > 3 ==> t[3].text == SensorLabel(s))
  {
  }

  /** A breadcrumb call is offered exactly when the trail shows an entry
      with that target (the sidebar's plant entry repeats the first one). */
  lemma BreadcrumbEnabledIffShown(s: NavState, t: View)
    ensures Enabled(s, Breadcrumb(t)) <==> exists c :: c in Trail(s) && c.target == Some(t)
  {
    var tr := Trail(s);
    TrailShape(s);
    if Enabled(s, Breadcrumb(t)) {
      assert tr[Depth(t)] in tr && tr[Depth(t)].target == Some(t);
    }
  }

  /** Clicking the entry at position `i` cuts the trail back to its first
      `i + 1` entries, with the same labels and targets, and highlights the
      clicked one. */
  lemma {:induction false} BreadcrumbTruncatesTrail(s: NavState, i: nat)
    requires i < |Trail(s)| && Trail(s)[i].target.Some?
    ensures var r := Apply(s, Breadcrumb(Trail(s)[i].target.value));
      && |Trail(r)| == i + 1
      && Trail(r)[i].highlighted
      && forall j | 0 <= j <= i :: Trail(r)[j].text == Trail(s)[j].text && Trail(r)[j].target == Trail(s)[j].target
  {
    var r := Apply(s, Breadcrumb(Trail(s)[i].target.value));
    TrailShape(s);
    TrailShape(r);
  }

  /** The page heading for the open view. Below the plant view it repeats
      the highlighted breadcrumb, except on a sensor view without a sensor,
      where that crumb is empty and the heading says "Sensor Data". */
  function Title(s: NavState): (r: string)
    ensures s.view != Gold ==>
      r == (if s.view == Data && s.sensor == None then "Sensor Data" else Trail(s)[Depth(s.view)].text)
  {
    match s.view
    case Gold => "Production Overview"
    case Silver => StageLabel(s)
    case Bronze => EquipmentLabel(s)
    case Data =>
      match s.sensor
      case Some(x) => x.name
      case None => "Sensor Data"
  }

  /** On every state the interface can reach, the heading and the trail
      name the selected entities and never fall back to the sample names. */
  lemma ReachableTitlesUseSelection(es: seq<Event>)
    requires Legal(Initial(), es)
    ensures var r := Run(Initial(), es);
      && (r.view == Silver ==> r.stage.Some? && Title(r) == r.stage.value.name)
      && (r.view == Bronze ==> r.equipment.Some? && Title(r) == r.equipment.value.equipId)
      && (r.view == Data ==> r.sensor.Some? && Title(r) == r.sensor.value.name)
      && (r.view != Gold ==> r.stage.Some? && Trail(r)[1].text == r.stage.value.name)
  {
    ReachableStatesConsistent(es);
  }

  // ---------------------------------------------------------------------
  // The root component's state variables and handlers

  class Navigator {
    var currentView: View
    var selectedStage: Option<Stage>
    var selectedEquipment: Option<Equipment>
    var selectedSensor: Option<Sensor>

    /** The four variables as one value. */
    function State(): NavState
      reads this
    {
      NavState(currentView, selectedStage, selectedEquipment, selectedSensor)
    }

    /** First render: plant overview, nothing selected. */
    constructor ()
      ensures currentView == Gold
      ensures selectedStage == None && selectedEquipment == None && selectedSensor == None
      ensures State() == Initial()
    {
      currentView := Gold;
      selectedStage := None;
      selectedEquipment := None;
      selectedSensor := None;
    }

    method HandleStageClick(stage: Stage)
      modifies this
      ensures currentView == Silver && selectedStage == Some(stage)
      ensures selectedEquipment == old(selectedEquipment) && selectedSensor == old(selectedSensor)
      ensures State() == Apply(old(State()), StageClick(stage))
    {
      selectedStage := Some(stage);
      currentView := Silver;
    }

    method HandleEquipmentClick(equipment: Equipment)
      modifies this
      ensures currentView == Bronze && selectedEquipment == Some(equipment)
      ensures selectedStage == old(selectedStage) && selectedSensor == old(selectedSensor)
      ensures State() == Apply(old(State()), EquipmentClick(equipment))
    {
      selectedEquipment := Some(equipment);
      currentView := Bronze;
    }

    method HandleSensorClick(sensor: Sensor)
      modifies this
      ensures currentView == Data && selectedSensor == Some(sensor)
      ensures selectedStage == old(selectedStage) && selectedEquipment == old(selectedEquipment)
      ensures State() == Apply(old(State()), SensorClick(sensor))
    {
      selectedSensor := Some(sensor);
      currentView := Data;
    }

    method HandleBreadcrumb(view: View)
      modifies this
      ensures view == Gold ==> currentView == Gold && selectedStage == None && selectedEquipment == None && selectedSensor == None
      ensures view == Silver ==> currentView == Silver && selectedStage == old(selectedStage) && selectedEquipment == None && selectedSensor == None
      ensures view == Bronze ==> currentView == Bronze && selectedStage == old(selectedStage) && selectedEquipment == old(selectedEquipment) && selectedSensor == None
      ensures view == Data ==> State() == old(State())
      ensures State() == Apply(old(State()), Breadcrumb(view))
    {
      if view == Gold {
        currentView := Gold;
        selectedStage := None;
        selectedEquipment := None;
        selectedSensor := None;
      } else if view == Silver {
        currentView := Silver;
        selectedEquipment := None;
        selectedSensor := None;
      } else if view == Bronze {
        currentView := Bronze;
        selectedSensor := None;
      }
    }
  }
}

=== FILE: records.dfy ===
/** Record shapes shared by the navigation controller and the stage view:
    the plant stage, the equipment summary and the sensor, as the data layer
    supplies them, with the fields the model uses or displays. */
module Records {

  /** A nullable reference, as the dashboard's `T | null` state variables. */
  datatype Option<+T> = None | Some(value: T)

  /** A plant stage (src/types/index.ts, `Stage`). */
  datatype Stage = Stage(stageId: string, name: string)

  /** An equipment summary (src/types/index.ts, `EquipmentSummary`).
      `riskCategory` is optional because the stage view reads it with `?.`. */
  datatype Equipment = Equipment(
    equipId: string,
    typeDisplay: string,
    status: string,
    healthScore: int,
    riskCategory: Option<string>)

  /** A sensor (src/types/index.ts, `Sensor`). */
  datatype Sensor = Sensor(sensorId: string, name: string, unit: string, status: string)
}
